=== FILE: README.md ===
# SkyBook booking page — a Dafny model

SkyBook is a flight-booking web page written as a single React component
(`src/App.jsx`). Its logic is the component's in-memory state and the
handlers that change it:

- the signed-in user,
- the displayed flights,
- the bookings list,
- the active tab,
- the search form,
- a loading flag,
- one notification slot.

Around that state sit a few pure helpers that compute what the page shows.

This project models that logic in Dafny:

- `jsstring.dfy` (module `JsString`): the JavaScript string operations the
  page uses: `toLowerCase`, `toUpperCase` of one character, `includes`,
  `startsWith`, and how a number prints inside a template literal. All are
  restricted to ASCII.
- `records.dfy` (module `Records`): flights, bookings, the user, tabs, the
  search form, and the seed catalogue and seed booking the page mounts with.
- `search.dfy` (module `Search`): the search filter and its message.
- `display.dfy` (module `Display`): `getStatusColor`, the status label,
  the revenue sum, and the bookings view that joins bookings to flights.
- `ticketing.dfy` (module `Ticketing`): the record `handleBookFlight`
  builds, its reference code (PNR), and the notification texts.
- `app.dfy` (module `App`): class `AppState`. Its fields are the
  component's state variables, and each handler is a method that reassigns
  the fields its setters touch.
- `scenarios.dfy` (module `Scenarios`): short concrete runs of the page.

Inputs the code draws from the environment are parameters:

- today's date from `new Date()`,
- the random number from `Math.random()`,
- the outcome of the SMS request.

The two timers are explicit steps:

- A search is held as pending until its 800 ms delay fires. It keeps the
  form as it was when the button was pressed. The button is disabled while
  the spinner shows, so at most one search is pending, and the spinner
  shows exactly while one is.
- Each notification schedules one clear. `AppState.ClearTimerFires` fires
  one of the scheduled clears.

A new notification does not cancel clears already scheduled. So the clear
scheduled for an earlier message also empties a later one
(`Scenarios.EarlierClearEmptiesLaterMessage`): a new message neither
restarts nor cancels the clears already scheduled.

`handleBookFlight` does not check that a user is signed in
(`Scenarios.BookWhileSignedOut`). It inserts the booking locally; it does
not reload the list from a server. Booking ids are `bookings.length + 1000`
and are not unique: next to the seed booking (id 1001), the first new
booking also gets id 1001 (`Ticketing.BookingIdCollidesWithSeed`).

## Model

| member | source | states |
|---|---|---|
| `JsString.LowerChar` | src/App.jsx:110 | `toLowerCase` on a character never yields an upper-case letter, leaves other characters alone, and is undone by upper-casing |
| `JsString.UpperChar` | src/App.jsx:419 | `toUpperCase` on a character never yields a lower-case letter and leaves non-letters alone |
| `JsString.LowerOfUpper` | src/App.jsx:419 | lower-casing after upper-casing is the same as lower-casing |
| `JsString.ToLowerCase` | src/App.jsx:110-111 | `toLowerCase` keeps the length and lower-cases each character in place |
| `JsString.ToLowerCaseIdempotent` | src/App.jsx:110-111 | lower-casing twice is the same as lower-casing once |
| `JsString.StartsWith` | src/App.jsx:112 | `startsWith`: the prefix is no longer than the string and equals its first characters |
| `JsString.Includes` | src/App.jsx:110-111 | `includes`: the query is a prefix of the string or of one of its tails, tried from the front |
| `JsString.OccursImpliesIncludes` | src/App.jsx:110-111 | an occurrence of the query at any position makes `includes` true |
| `JsString.IncludesImpliesOccurs` | src/App.jsx:110-111 | when `includes` is true, the query occurs at some position |
| `JsString.IncludesIffOccurs` | src/App.jsx:110-111 | `includes` is true exactly when the query occurs somewhere in the string |
| `JsString.IncludesEmpty` | src/App.jsx:110-111 | every string includes the empty query |
| `JsString.NatToString` | src/App.jsx:116 | a number prints as a non-empty string of decimal digits with no leading zero |
| `JsString.ParseNatToString` | src/App.jsx:116 | reading a printed number's digits back gives the number |
| `JsString.NatToStringInjective` | src/App.jsx:116 | two numbers print the same exactly when they are equal |
| `JsString.FourDigits` | src/App.jsx:129 | numbers 1000 to 9999 print with exactly four digits |
| `Records.InitialSearchParams` | src/App.jsx:8-14 | the preset form offers a valid passenger count and carries today's date |
| `Records.SeedFlights` | src/App.jsx:19-81 | the catalogue holds the four listed flights, with ids 1 to 4 in order, so a lookup by id finds one flight |
| `Records.SeedBookings` | src/App.jsx:84-98 | the page starts with one booking, id 1001, for the first catalogue flight |
| `Records.SubsequenceOfTail` | src/App.jsx:506-508 | a subsequence of a list's tail is a subsequence of the list (a booking left out of the view keeps the rest in order) |
| `Records.SubsequenceDropHead` | src/App.jsx:506-508 | dropping the first element of a subsequence leaves a subsequence |
| `Search.Matches` | src/App.jsx:109-112 | a flight matches when its lower-cased origin and destination include the form's lower-cased ones and its departure starts with the form's date |
| `Search.FilterFlights` | src/App.jsx:108-113 | the search result is no longer than the catalogue and holds only catalogue flights that match |
| `Search.MatchingIndicesExact` | src/App.jsx:108-113 | the positions of matching flights are in range, strictly increasing, and are exactly the positions whose flight matches |
| `Search.FilterPicksMatching` | src/App.jsx:108-113 | filtering a suffix of the catalogue reads it at the matching positions, in order |
| `Search.SearchSelectsInOrder` | src/App.jsx:108-113 | the result is the catalogue read at the strictly increasing positions of exactly the flights whose lower-cased origin and destination contain the form's, and whose departure starts with the form's date |
| `Search.FilterIsSubsequence` | src/App.jsx:108-113 | the result is a subsequence of the catalogue |
| `Search.FilterCounts` | src/App.jsx:108-113 | a flight is in the result exactly when it is in the catalogue and matches, and it appears as often as in the catalogue |
| `Search.EmptyQueryMatches` | src/App.jsx:110-112 | an empty origin, destination and date match every flight |
| `Search.AllMatchKeepsAll` | src/App.jsx:108-113 | when every flight matches, the result is the whole catalogue |
| `Search.EmptyQueryKeepsAll` | src/App.jsx:110-112 | an empty origin, destination and date return the whole catalogue |
| `Search.CaseInsensitive` | src/App.jsx:110-111 | two forms whose cities differ only in letter case select the same flights |
| `Search.FoundMessage` | src/App.jsx:116 | the search message is "Found ", the count's digits, " flights"; the digits read back as the count and have no leading zero |
| `Display.StatusColor` | src/App.jsx:156-163 | the gray default is chosen exactly for statuses other than on-time, delayed and cancelled, and each known status's classes identify that status |
| `Display.StatusColorDistinct` | src/App.jsx:156-163 | two known statuses get the same classes only when they are the same status |
| `Display.Capitalize` | src/App.jsx:419 | capitalising keeps the length and the tail, upper-cases the first character, and does not change the lower-cased text |
| `Display.DelayText` | src/App.jsx:419 | a template literal prints a delay as digits with no leading zero that read back as the delay, and a missing delay as "undefined" |
| `Display.StatusLabel` | src/App.jsx:419 | a delayed flight is labelled "Delayed +", the printed delay, then "m", so "Delayed +undefinedm" when it has no delay; any other flight's label is its capitalised status, which lower-cases to its lower-cased status |
| `Display.DelayedLabelRoundTrip` | src/App.jsx:543 | the label of a delayed flight with a delay gives that delay back |
| `Display.RevenueAppend` | src/App.jsx:611 | revenue over two concatenated lists is the sum of their revenues |
| `Display.RevenuePrepend` | src/App.jsx:611 | a booking put in front adds its amount to the revenue |
| `Display.RevenueBoundsEach` | src/App.jsx:611 | each booking's amount is at most the revenue |
| `Display.FindFlight` | src/App.jsx:507 | `find` returns nothing exactly when no flight has the id; otherwise it returns a listed flight with that id |
| `Display.FindFlightFirst` | src/App.jsx:507 | the flight `find` returns comes before every other flight with that id |
| `Display.BookingsView` | src/App.jsx:506-508 | the cards' bookings are a subsequence of the bookings list (booking order kept, no booking shown twice); each card's flight is the one `find` returns for its booking's flight id |
| `Display.BookingsViewShows` | src/App.jsx:506-508 | a booking is shown exactly when it is in the list and some current flight has its flight id |
| `Display.BookingsViewComplete` | src/App.jsx:506-508 | when every booking's flight is present, all bookings are shown, in order |
| `Ticketing.PnrSuffix` | src/App.jsx:129 | `Math.floor(1000 + r * 9000)` for r in [0, 1) lies in 1000 to 9999 |
| `Ticketing.Pnr` | src/App.jsx:129 | a reference code is "BK" followed by digits only |
| `Ticketing.NewBooking` | src/App.jsx:121-133 | the record `handleBookFlight` builds; with a four-digit suffix its reference code reads back to the flight id and that suffix |
| `Ticketing.PnrRoundTrip` | src/App.jsx:129 | a reference code gives back the flight id and suffix it was built from |
| `Ticketing.PnrInjective` | src/App.jsx:129 | two reference codes are equal exactly when their flight ids and suffixes are |
| `Ticketing.BookingIdCollidesWithSeed` | src/App.jsx:122 | the first booking made next to the seed booking gets the seed booking's id |
| `Ticketing.BookedMessage` | src/App.jsx:136 | the booking message is "Successfully booked flight ", the flight number, then "!" |
| `Ticketing.AlertMessage` | src/App.jsx:177-185 | the SMS message starts with a check mark exactly when the backend reported success, and then ends with the flight number |
| `Ticketing.AlertMessageDistinguishes` | src/App.jsx:177-185 | success, failure and an exception each produce a different message |
| `App.AppState.constructor` | src/App.jsx:4-16 | the first render has no user, no flights, no bookings, the search tab, the preset form, no spinner and an empty notification |
| `App.AppState.Mount` | src/App.jsx:100-103 | the mount effect runs once only (every other method keeps it run or not run), before any booking or search result, since no flight card exists and the 800 ms timer cannot fire before it; it loads the catalogue and the seed booking and changes nothing else |
| `App.AppState.EditSearchForm` | src/App.jsx:317-361 | editing the form replaces it and changes nothing else |
| `App.AppState.SelectTab` | src/App.jsx:218-247 | a tab button changes only the active tab |
| `App.AppState.ShowNotification` | src/App.jsx:140-143 | the slot holds the new message and one more clear is scheduled; nothing else changes |
| `App.AppState.ClearTimerFires` | src/App.jsx:142 | a scheduled clear empties the slot, whatever message it holds |
| `App.AppState.StartSearch` | src/App.jsx:105-107 | called only while the spinner is off, as the disabled button ensures (src/App.jsx:369-370): the spinner turns on and the current form becomes the one pending search |
| `App.AppState.SearchTimerFires` | src/App.jsx:107-117 | fires only after the mount effect; the displayed flights become exactly the catalogue filtered by the pending form, no more than the catalogue; the spinner stops; "Found n flights" is posted; user and bookings are unchanged |
| `App.AppState.BookFlight` | src/App.jsx:120-138 | called only after the mount effect, since before it no flight card is shown (src/App.jsx:5,403); the list becomes the new booking followed by every old booking unchanged; the new booking has the listed fields, user id 1, the fixed e-mail and phone, alerts on, the PNR "BK" + flight id + the suffix drawn from `r`, which reads back to the flight id and a four-digit suffix, and adds price × passengers to the revenue; the bookings tab opens and the flight number is announced; user and flights are unchanged |
| `App.AppState.SendDelayAlert` | src/App.jsx:166-187 | the notification is the outcome's message and nothing else changes |
| `App.AppState.Login` | src/App.jsx:189-192 | a user is set and announced; flights, bookings and tab are unchanged |
| `App.AppState.Logout` | src/App.jsx:194-198 | the user is cleared and the search tab opens; flights and bookings are unchanged |
| `Scenarios.MatchesSameCities` | src/App.jsx:108-113 | a flight whose cities lower-case to the form's, departing on the form's date, matches |
| `Scenarios.NewYorkLondonMatches` | src/App.jsx:108-113 | a New York to London flight on the seed date matches every form whose cities lower-case to "new york" and "london" and whose date is the seed date |
| `Scenarios.SeedDaySearchFindsWholeSeed` | src/App.jsx:19-81 | searching New York to London on 2023-12-01, in any letter case, returns all four seed flights |
| `Scenarios.BookWhileSignedOut` | src/App.jsx:120-138 | with nobody signed in, booking after mount still succeeds, and both bookings have id 1001 |
| `Scenarios.EarlierClearEmptiesLaterMessage` | src/App.jsx:140-143 | the clear scheduled for the login message empties the later logout message |
| `Scenarios.EmptySearchShowsCatalogue` | src/App.jsx:105-117 | a search with an empty form shows the whole seed catalogue and announces four flights |

## Left out

- JSX markup, CSS classes and the inline style block: presentation only.
  Only the values the markup computes are modelled: status classes, the
  status label, revenue and the bookings join.
- `formatTime` and `formatDate`: they depend on the browser's locale.
- The `fetch` to the SMS backend and the parsing of its JSON answer: network
  I/O. `sendDelayAlert` takes the outcome as a parameter (`Sent`, `NotSent`
  or `Unreachable`). `console.error` logging is not modelled.
- Real time: the 800 ms and 3000 ms delays are steps that the environment
  fires. Timers that fire after the component unmounts are not modelled.
- `new Date()` and `Math.random()` are parameters of the constructor and of
  `BookFlight`.
- Unicode case mapping in `toLowerCase` and `toUpperCase`: only ASCII
  letters change case.
- JavaScript number semantics:
  - Prices, ids, amounts and the delay are natural numbers, not floats.
  - The form's passenger count is a natural number from 1 to 8, as the
    selector offers. The string-to-number coercion of the selected value
    is not modelled.
  - Missing `delayMinutes` prints as "undefined", as a template literal
    does.
- `src/firebase.js`: configuration and calls into the Firebase SDK. It is
  not part of this model.

=== FILE: app.dfy ===
/** The state of the booking page component and the handlers that change it.
    Each `useState` variable is a field; each handler is a method that
    reassigns the fields its setters touch. The two timers the page starts
    are explicit: a search's 800 ms delay and a notification's 3000 ms
    clear are pending until the environment fires them. */
module App {
  import opened Records
  import opened Search
  import opened Display
  import opened Ticketing

  class AppState {
    /** The fixed catalogue (`mockFlights`) every search filters. */
    const catalog: seq<Flight>
    var user: Option<User>
    var flights: seq<Flight>
    var bookings: seq<Booking>
    var activeTab: Tab
    var searchParams: SearchParams
    var loading: bool
    var notification: string
    /** The search whose delay has not elapsed, holding the form as it was
        when its button was pressed. */
    var pendingSearch: Option<SearchParams>
    /** Notification clears that are scheduled and have not fired. */
    var pendingClears: nat
    /** Whether the mount effect has run; it runs once, after the first render. */
    ghost var mounted: bool

    /** The passenger count is one the selector offers, the displayed
        flights are catalogue flights in catalogue order, and the spinner
        shows exactly while a search is pending. */
    ghost predicate Valid()
      reads this
    {
      ValidPassengers(searchParams.passengers)
      && IsSubsequence(flights, catalog)
      && (loading <==> pendingSearch.Some?)
    }

    /** The first render: nobody signed in, no flights, no bookings, the
        search tab, and the form preset with `today`'s date. */
    constructor (today: string)
      ensures Valid() && catalog == SeedFlights()
      ensures user == None && flights == [] && bookings == []
      ensures activeTab == SearchTab && searchParams == InitialSearchParams(today)
      ensures !loading && notification == "" && pendingSearch == None && pendingClears == 0
      ensures !mounted
    {
      catalog := SeedFlights();
      user := None;
      flights := [];
      bookings := [];
      activeTab := SearchTab;
      searchParams := InitialSearchParams(today);
      loading := false;
      notification := "";
      pendingSearch := None;
      pendingClears := 0;
      mounted := false;
    }

    /** The mount effect: loads the catalogue and the seed booking. Its
        dependency list is empty, so it runs once only. */
    method Mount()
      requires Valid() && !mounted
      modifies this
      ensures Valid() && mounted
      ensures flights == catalog && bookings == SeedBookings()
      ensures user == old(user) && activeTab == old(activeTab) && searchParams == old(searchParams)
      ensures loading == old(loading) && notification == old(notification)
      ensures pendingSearch == old(pendingSearch) && pendingClears == old(pendingClears)
    {
      flights := catalog;
      bookings := SeedBookings();
      mounted := true;
      SubsequenceReflexive(flights);
    }

    /** Editing a field of the search form replaces the form. */
    method EditSearchForm(q: SearchParams)
      requires Valid() && ValidPassengers(q.passengers)
      modifies this
      ensures Valid() && searchParams == q
      ensures user == old(user) && flights == old(flights) && bookings == old(bookings)
      ensures activeTab == old(activeTab) && loading == old(loading) && notification == old(notification)
      ensures pendingSearch == old(pendingSearch) && pendingClears == old(pendingClears)
      ensures mounted == old(mounted)
    {
      searchParams := q;
    }

    /** A tab button switches the active tab and nothing else. */
    method SelectTab(t: Tab)
      requires Valid()
      modifies this
      ensures Valid() && activeTab == t
      ensures user == old(user) && flights == old(flights) && bookings == old(bookings)
      ensures searchParams == old(searchParams) && loading == old(loading) && notification == old(notification)
      ensures pendingSearch == old(pendingSearch) && pendingClears == old(pendingClears)
      ensures mounted == old(mounted)
    {
      activeTab := t;
    }

    /** `showNotification`: the single message slot takes the new text,
        and one more clear is scheduled. Earlier clears stay scheduled. */
    method ShowNotification(message: string)
      requires Valid()
      modifies this
      ensures Valid() && notification == message && pendingClears == old(pendingClears) + 1
      ensures user == old(user) && flights == old(flights) && bookings == old(bookings)
      ensures activeTab == old(activeTab) && searchParams == old(searchParams) && loading == old(loading)
      ensures pendingSearch == old(pendingSearch)
      ensures mounted == old(mounted)
    {
      notification := message;
      pendingClears := pendingClears + 1;
    }

    /** A scheduled clear fires and empties the slot, whichever message it
        holds by then. */
    method ClearTimerFires()
      requires Valid() && pendingClears > 0
      modifies this
      ensures Valid() && notification == "" && pendingClears == old(pendingClears) - 1
      ensures user == old(user) && flights == old(flights) && bookings == old(bookings)
      ensures activeTab == old(activeTab) && searchParams == old(searchParams) && loading == old(loading)
      ensures pendingSearch == old(pendingSearch)
      ensures mounted == old(mounted)
    {
      notification := "";
      pendingClears := pendingClears - 1;
    }

    /** `handleSearch`: turns the spinner on and starts the delay with the
        form as it is now. The search button is disabled while the spinner
        shows, so no search is pending when it is pressed. */
    method StartSearch()
      requires Valid() && !loading
      modifies this
      ensures Valid() && loading && pendingSearch == Some(searchParams)
      ensures user == old(user) && flights == old(flights) && bookings == old(bookings)
      ensures activeTab == old(activeTab) && searchParams == old(searchParams)
      ensures notification == old(notification) && pendingClears == old(pendingClears)
      ensures mounted == old(mounted)
    {
      loading := true;
      pendingSearch := Some(searchParams);
    }

    /** The search delay elapses: the displayed flights become exactly the
        catalogue flights that match the pending search's form, the spinner
        stops and the count is announced. */
    method SearchTimerFires()
      requires Valid() && mounted && pendingSearch.Some?
      modifies this
      ensures Valid() && !loading && pendingSearch == None
      ensures flights == FilterFlights(catalog, old(pendingSearch).value)
      ensures |flights| <= |catalog|
      ensures notification == FoundMessage(|flights|) && pendingClears == old(pendingClears) + 1
      ensures user == old(user) && bookings == old(bookings)
      ensures activeTab == old(activeTab) && searchParams == old(searchParams)
      ensures mounted == old(mounted)
    {
      var q := pendingSearch.value;
      var filtered := FilterFlights(catalog, q);
      FilterIsSubsequence(catalog, q);
      flights := filtered;
      loading := false;
      pendingSearch := None;
      ShowNotification(FoundMessage(|filtered|));
    }

    /** `handleBookFlight`: puts a new booking in front of the list, posts a
        confirmation and opens the bookings tab. `today` is the clock's date
        and `r` the random number the reference code is drawn from. The
        handler does not look at `user`. */
    method BookFlight(flight: Flight, today: string, r: real)
      requires Valid() && mounted && 0.0 <= r < 1.0
      modifies this
      ensures Valid()
      ensures |bookings| == |old(bookings)| + 1 && bookings[1..] == old(bookings)
      ensures bookings[0].id == |old(bookings)| + 1000
      ensures bookings[0].flightId == flight.id && bookings[0].status == "confirmed"
      ensures bookings[0].bookingDate == today && bookings[0].passengers == searchParams.passengers
      ensures bookings[0].totalAmount == flight.price * searchParams.passengers
      ensures bookings[0].userId == 1 && bookings[0].email == "user@example.com"
      ensures bookings[0].phone == "+1234567890" && bookings[0].alertsEnabled
      ensures bookings[0].pnr == Pnr(flight.id, PnrSuffix(r))
      ensures var code := ParsePnr(bookings[0].pnr);
        code.Some? && code.value.0 == flight.id && 1000 <= code.value.1 <= 9999
      ensures Revenue(bookings) == Revenue(old(bookings)) + flight.price * searchParams.passengers
      ensures flight in flights ==> var view := BookingsView(bookings, flights);
        |view| > 0 && view[0].booking == bookings[0] && view[0].flight.id == flight.id
      ensures activeTab == BookingsTab && notification == BookedMessage(flight.flightNumber)
      ensures pendingClears == old(pendingClears) + 1
      ensures user == old(user) && flights == old(flights) && searchParams == old(searchParams)
      ensures loading == old(loading) && pendingSearch == old(pendingSearch)
      ensures mounted == old(mounted)
    {
      var suffix := PnrSuffix(r);
      var b := NewBooking(|bookings|, flight, searchParams.passengers, today, suffix);
      PnrRoundTrip(flight.id, suffix);
      RevenuePrepend(b, bookings);
      bookings := [b] + bookings;
      ShowNotification(BookedMessage(flight.flightNumber));
      activeTab := BookingsTab;
    }

    /** `sendDelayAlert`: the backend's answer, reduced to its outcome,
        selects the notification. */
    method SendDelayAlert(flight: Flight, outcome: AlertOutcome)
      requires Valid()
      modifies this
      ensures Valid() && notification == AlertMessage(flight, outcome)
      ensures pendingClears == old(pendingClears) + 1
      ensures user == old(user) && flights == old(flights) && bookings == old(bookings)
      ensures activeTab == old(activeTab) && searchParams == old(searchParams) && loading == old(loading)
      ensures pendingSearch == old(pendingSearch)
      ensures mounted == old(mounted)
    {
      ShowNotification(AlertMessage(flight, outcome));
    }

    /** `handleLogin`: signs the demo user in. */
    method Login()
      requires Valid()
      modifies this
      ensures Valid() && user == Some(DemoUser) && notification == LoggedInMessage
      ensures pendingClears == old(pendingClears) + 1
      ensures flights == old(flights) && bookings == old(bookings)
      ensures activeTab == old(activeTab) && searchParams == old(searchParams) && loading == old(loading)
      ensures pendingSearch == old(pendingSearch)
      ensures mounted == old(mounted)
    {
      user := Some(DemoUser);
      ShowNotification(LoggedInMessage);
    }

    /** `handleLogout`: signs out and returns to the search tab; flights and
        bookings stay as they are. */
    method Logout()
      requires Valid()
      modifies this
      ensures Valid() && user == None && activeTab == SearchTab && notification == LoggedOutMessage
      ensures pendingClears == old(pendingClears) + 1
      ensures flights == old(flights) && bookings == old(bookings)
      ensures searchParams == old(searchParams) && loading == old(loading)
      ensures pendingSearch == old(pendingSearch)
      ensures mounted == old(mounted)
    {
      user := None;
      activeTab := SearchTab;
      ShowNotification(LoggedOutMessage);
    }
  }
}

=== FILE: display.dfy ===
/** Values the page derives from its state for display: the colour classes
    and label of a flight status, the revenue total and the bookings view,
    which pairs each booking with its flight. */
module Display {
  import opened JsString
  import opened Records

  const OnTimeClasses := "text-green-600 bg-green-100"
  const DelayedClasses := "text-orange-600 bg-orange-100"
  const CancelledClasses := "text-red-600 bg-red-100"
  const DefaultClasses := "text-gray-600 bg-gray-100"

  /** The statuses with a colour of their own. */
  predicate KnownStatus(status: string)
  {
    status == "on-time" || status == "delayed" || status == "cancelled"
  }

  /** `getStatusColor`: green, orange or red for the three known statuses, gray otherwise. */
  function StatusColor(status: string): (c: string)
    ensures c == DefaultClasses <==> !KnownStatus(status)
    ensures KnownStatus(status) ==> StatusOfColor(c) == Some(status)
  {
    match status
    case "on-time" => OnTimeClasses
    case "delayed" => DelayedClasses
    case "cancelled" => CancelledClasses
    case _ => DefaultClasses
  }

  /** Which known status a colour class string stands for, if any. */
  function StatusOfColor(c: string): Option<string>
  {
    if c == OnTimeClasses then Some("on-time")
    else if c == DelayedClasses then Some("delayed")
    else if c == CancelledClasses then Some("cancelled")
    else None
  }

  /** Two known statuses get the same colour only when they are the same status. */
  lemma StatusColorDistinct(s1: string, s2: string)
    requires KnownStatus(s1) && KnownStatus(s2)
    ensures StatusColor(s1) == StatusColor(s2) <==> s1 == s2
  {
  }

  /** `s.charAt(0).toUpperCase() + s.slice(1)`. */
  function Capitalize(s: string): (r: string)
    ensures |r| == |s|
    ensures |s| > 0 ==> r[0] == UpperChar(s[0]) && r[1..] == s[1..]
    ensures ToLowerCase(r) == ToLowerCase(s)
  {
    if s == [] then []
    else
      var r := [UpperChar(s[0])] + s[1..];
      LowerOfUpper(s[0]);
      assert forall i :: 0 <= i < |s| ==> ToLowerCase(r)[i] == ToLowerCase(s)[i];
      r
  }

  /** How a template literal prints `flight.delayMinutes`: the number, or
      "undefined" when the flight has none. */
  function DelayText(delay: Option<nat>): (t: string)
    ensures delay.Some? ==> AllDigits(t) && ParseDigits(t) == delay.value
    ensures delay.Some? ==> |t| >= 1 && (t[0] == '0' ==> delay.value == 0)
    ensures delay.None? ==> t == "undefined"
  {
    match delay
    case Some(m) => ParseNatToString(m); NatToString(m)
    case None => "undefined"
  }

  /** The status label of a flight card: "Delayed +<m>m" for a delayed flight,
      the capitalised status otherwise. */
  function StatusLabel(f: Flight): (text: string)
    ensures f.status != "delayed" ==> text == Capitalize(f.status)
    ensures f.status != "delayed" ==> ToLowerCase(text) == ToLowerCase(f.status)
    ensures f.status == "delayed" ==> StartsWith(text, "Delayed +") && text[|text| - 1] == 'm'
    ensures f.status == "delayed" ==> |text| >= 10 && text[9..|text| - 1] == DelayText(f.delayMinutes)
    ensures f.status == "delayed" && f.delayMinutes.None? ==> text == "Delayed +undefinedm"
  {
    if f.status == "delayed" then "Delayed +" + DelayText(f.delayMinutes) + "m"
    else Capitalize(f.status)
  }

  /** Reads the delay back out of a "Delayed +<m>m" label. */
  function ParseDelayLabel(text: string): Option<nat>
  {
    if |text| >= 11 && StartsWith(text, "Delayed +") && text[|text| - 1] == 'm'
       && AllDigits(text[9..|text| - 1])
    then Some(ParseDigits(text[9..|text| - 1]))
    else None
  }

  /** The label of a delayed flight with a known delay gives that delay back. */
  lemma DelayedLabelRoundTrip(f: Flight)
    requires f.status == "delayed" && f.delayMinutes.Some?
    ensures ParseDelayLabel(StatusLabel(f)) == Some(f.delayMinutes.value)
  {
    var text := StatusLabel(f);
    var digits := NatToString(f.delayMinutes.value);
    assert text[9..|text| - 1] == digits;
    ParseNatToString(f.delayMinutes.value);
  }

  /** `bookings.reduce((sum, b) => sum + b.totalAmount, 0)`: folds from the left. */
  function Revenue(bs: seq<Booking>): nat
    decreases |bs|
  {
    if bs == [] then 0 else Revenue(bs[..|bs| - 1]) + bs[|bs| - 1].totalAmount
  }

  /** Revenue is additive over concatenation. */
  lemma {:induction false} RevenueAppend(a: seq<Booking>, b: seq<Booking>)
    ensures Revenue(a + b) == Revenue(a) + Revenue(b)
    decreases |b|
  {
    if b != [] {
      assert (a + b)[..|a + b| - 1] == a + b[..|b| - 1];
      assert (a + b)[|a + b| - 1] == b[|b| - 1];
      RevenueAppend(a, b[..|b| - 1]);
    } else {
      assert a + b == a;
    }
  }

  /** Putting a booking in front adds its amount to the revenue. */
  lemma RevenuePrepend(b: Booking, bs: seq<Booking>)
    ensures Revenue([b] + bs) == b.totalAmount + Revenue(bs)
  {
    RevenueAppend([b], bs);
    assert [b][..0] == [];
  }

  /** Revenue is the sum of every booking's amount: each one bounds it from below. */
  lemma {:induction false} RevenueBoundsEach(bs: seq<Booking>, i: nat)
    requires i < |bs|
    ensures bs[i].totalAmount <= Revenue(bs)
  {
    RevenueAppend(bs[..i], bs[i..]);
    RevenueAppend([bs[i]], bs[i + 1..]);
    assert bs[i..] == [bs[i]] + bs[i + 1..];
    assert [bs[i]][..0] == [];
    assert bs == bs[..i] + bs[i..];
  }

  /** `flights.find(f => f.id === id)`: the first flight with that id, if any. */
  function FindFlight(fs: seq<Flight>, id: nat): (r: Option<Flight>)
    ensures r.None? <==> forall f :: f in fs ==> f.id != id
    ensures r.Some? ==> r.value in fs && r.value.id == id
    decreases |fs|
  {
    if fs == [] then None
    else if fs[0].id == id then Some(fs[0])
    else FindFlight(fs[1..], id)
  }

  /** The flight `find` returns comes before every other flight with that id. */
  lemma {:induction false} FindFlightFirst(fs: seq<Flight>, id: nat)
    requires FindFlight(fs, id).Some?
    ensures exists i :: 0 <= i < |fs| && fs[i] == FindFlight(fs, id).value
                        && (forall j :: 0 <= j < i ==> fs[j].id != id)
    decreases |fs|
  {
    if fs[0].id != id {
      FindFlightFirst(fs[1..], id);
      var i :| 0 <= i < |fs[1..]| && fs[1..][i] == FindFlight(fs, id).value
        && forall j :: 0 <= j < i ==> fs[1..][j].id != id;
      assert fs[i + 1] == FindFlight(fs, id).value;
      assert forall j :: 1 <= j < i + 1 ==> fs[j].id == fs[1..][j - 1].id;
    } else {
      assert fs[0] == FindFlight(fs, id).value;
    }
  }

  /** A card of the bookings view: a booking together with its flight. */
  datatype BookingCard = BookingCard(booking: Booking, flight: Flight)

  /** The bookings of a list of cards, in card order. */
  function CardBookings(view: seq<BookingCard>): seq<Booking>
  {
    seq(|view|, i requires 0 <= i < |view| => view[i].booking)
  }

  /** The bookings view: every booking whose flight is in the current list,
      paired with the flight `find` returns for it, in booking order; the
      others are not shown. */
  function BookingsView(bs: seq<Booking>, fs: seq<Flight>): (view: seq<BookingCard>)
    ensures |view| <= |bs|
    ensures IsSubsequence(CardBookings(view), bs)
    ensures forall c :: c in view ==> c.booking in bs && FindFlight(fs, c.booking.flightId) == Some(c.flight)
    ensures forall c :: c in view ==> c.flight in fs && c.flight.id == c.booking.flightId
    decreases |bs|
  {
    if bs == [] then []
    else
      var rest := BookingsView(bs[1..], fs);
      match FindFlight(fs, bs[0].flightId)
      case Some(f) =>
        var view := [BookingCard(bs[0], f)] + rest;
        assert CardBookings(view)[1..] == CardBookings(rest);
        view
      case None =>
        SubsequenceOfTail(CardBookings(rest), bs);
        rest
  }

  /** Some flight in the list has the booking's flight id. */
  predicate HasFlight(b: Booking, fs: seq<Flight>)
  {
    exists f :: f in fs && f.id == b.flightId
  }

  /** A booking is shown exactly when it is in the list and its flight is present. */
  lemma {:induction false} BookingsViewShows(bs: seq<Booking>, fs: seq<Flight>, b: Booking)
    ensures (exists c :: c in BookingsView(bs, fs) && c.booking == b) <==> b in bs && HasFlight(b, fs)
    decreases |bs|
  {
    if bs != [] {
      BookingsViewShows(bs[1..], fs, b);
      var found := FindFlight(fs, bs[0].flightId);
      if b == bs[0] && found.Some? {
        assert BookingsView(bs, fs)[0] == BookingCard(b, found.value);
      }
      if b in bs && HasFlight(b, fs) && b != bs[0] {
        assert b in bs[1..];
      }
    }
  }

  /** When every booking's flight is present, the view shows all of them, in order. */
  lemma {:induction false} BookingsViewComplete(bs: seq<Booking>, fs: seq<Flight>)
    requires forall b :: b in bs ==> HasFlight(b, fs)
    ensures |BookingsView(bs, fs)| == |bs|
    ensures forall i :: 0 <= i < |bs| ==> BookingsView(bs, fs)[i].booking == bs[i]
    decreases |bs|
  {
    if bs != [] {
      assert bs[0] in bs;
      var w :| w in fs && w.id == bs[0].flightId;
      assert FindFlight(fs, bs[0].flightId).Some?;
      BookingsViewComplete(bs[1..], fs);
    }
  }
}

=== FILE: jsstring.dfy ===
/** The JavaScript string operations the booking component relies on
    (`toLowerCase`, `toUpperCase` of one character, `includes`, `startsWith`,
    and the decimal rendering of a number inside a template literal),
    restricted to ASCII. */
module JsString {

  predicate IsUpper(c: char) { 'A' <= c <= 'Z' }

  predicate IsLower(c: char) { 'a' <= c <= 'z' }

  /** `toLowerCase` on one ASCII character. */
  function LowerChar(c: char): (r: char)
    ensures !IsUpper(r)
    ensures !IsUpper(c) ==> r == c
    ensures IsUpper(c) ==> IsLower(r) && UpperChar(r) == c
  {
    if IsUpper(c) then (c as int + 32) as char else c
  }

  /** `toUpperCase` on one ASCII character. */
  function UpperChar(c: char): (r: char)
    ensures !IsLower(r)
    ensures !IsLower(c) ==> r == c
  {
    if IsLower(c) then (c as int - 32) as char else c
  }

  /** Lower-casing a character after upper-casing it gives the same as lower-casing it. */
  lemma LowerOfUpper(c: char)
    ensures LowerChar(UpperChar(c)) == LowerChar(c)
  {
  }

  /** `s.toLowerCase()`. */
  function ToLowerCase(s: string): (r: string)
    ensures |r| == |s|
    ensures forall i :: 0 <= i < |s| ==> r[i] == LowerChar(s[i])
  {
    if s == [] then [] else [LowerChar(s[0])] + ToLowerCase(s[1..])
  }

  /** Lower-casing is idempotent. */
  lemma ToLowerCaseIdempotent(s: string)
    ensures ToLowerCase(ToLowerCase(s)) == ToLowerCase(s)
  {
  }

  /** `s.startsWith(p)`. */
  predicate StartsWith(s: string, p: string)
  {
    |p| <= |s| && s[..|p|] == p
  }

  /** `q` occurs in `s` at position `i`. */
  predicate OccursAt(s: string, q: string, i: int)
  {
    0 <= i && i + |q| <= |s| && s[i..i + |q|] == q
  }

  /** `s.includes(q)`: a scan that tries every start position in turn. */
  predicate Includes(s: string, q: string)
    decreases |s|
  {
    StartsWith(s, q) || (s != [] && Includes(s[1..], q))
  }

  /** An occurrence anywhere makes the scan succeed. */
  lemma {:induction false} OccursImpliesIncludes(s: string, q: string, i: int)
    requires OccursAt(s, q, i)
    ensures Includes(s, q)
    decreases i
  {
    if i > 0 {
      assert s[1..][i - 1..i - 1 + |q|] == s[i..i + |q|];
      OccursImpliesIncludes(s[1..], q, i - 1);
    }
  }

  /** A successful scan has found an occurrence. */
  lemma {:induction false} IncludesImpliesOccurs(s: string, q: string)
    requires Includes(s, q)
    ensures exists i :: OccursAt(s, q, i)
    decreases |s|
  {
    if StartsWith(s, q) {
      assert OccursAt(s, q, 0);
    } else {
      IncludesImpliesOccurs(s[1..], q);
      var i :| OccursAt(s[1..], q, i);
      assert s[1..][i..i + |q|] == s[i + 1..i + 1 + |q|];
      assert OccursAt(s, q, i + 1);
    }
  }

  /** `includes` holds exactly when the query occurs somewhere in the string. */
  lemma IncludesIffOccurs(s: string, q: string)
    ensures Includes(s, q) <==> exists i :: OccursAt(s, q, i)
  {
    if Includes(s, q) {
      IncludesImpliesOccurs(s, q);
    }
    forall i | OccursAt(s, q, i) ensures Includes(s, q) {
      OccursImpliesIncludes(s, q, i);
    }
  }

  /** The empty query is found in every string. */
  lemma IncludesEmpty(s: string)
    ensures Includes(s, "")
  {
  }

  predicate IsDigit(c: char) { '0' <= c <= '9' }

  predicate AllDigits(s: string)
  {
    forall i :: 0 <= i < |s| ==> IsDigit(s[i])
  }

  function DigitChar(d: nat): (c: char)
    requires d < 10
    ensures IsDigit(c)
  {
    (48 + d) as char
  }

  function DigitValue(c: char): (d: nat)
    requires IsDigit(c)
    ensures d < 10
    ensures DigitChar(d) == c
  {
    c as int - 48
  }

  /** `String(n)` for a non-negative integer: its decimal digits, no leading zero. */
  function NatToString(n: nat): (r: string)
    ensures |r| >= 1 && AllDigits(r)
    ensures r[0] == '0' ==> n == 0
    decreases n
  {
    if n < 10 then [DigitChar(n)] else NatToString(n / 10) + [DigitChar(n % 10)]
  }

  /** Reads a string of decimal digits back as a number (`parseInt` on digits). */
  function ParseDigits(s: string): nat
    requires AllDigits(s)
    decreases |s|
  {
    if s == [] then 0 else ParseDigits(s[..|s| - 1]) * 10 + DigitValue(s[|s| - 1])
  }

  /** Rendering a number and reading it back gives the number. */
  lemma {:induction false} ParseNatToString(n: nat)
    ensures ParseDigits(NatToString(n)) == n
    decreases n
  {
    var r := NatToString(n);
    if n >= 10 {
      ParseNatToString(n / 10);
      assert r[..|r| - 1] == NatToString(n / 10);
    }
  }

  /** Rendering is injective: different numbers have different renderings. */
  lemma NatToStringInjective(m: nat, n: nat)
    ensures NatToString(m) == NatToString(n) <==> m == n
  {
    if NatToString(m) == NatToString(n) {
      ParseNatToString(m);
      ParseNatToString(n);
    }
  }

  /** The numbers 1000 to 9999 are rendered with exactly four digits. */
  lemma {:induction false} FourDigits(n: nat)
    requires 1000 <= n <= 9999
    ensures |NatToString(n)| == 4
  {
    assert |NatToString(n / 1000)| == 1;
    assert |NatToString(n / 100)| == 2;
    assert |NatToString(n / 10)| == 3;
  }
}

=== FILE: records.dfy ===
/** The records the booking component keeps in its state, and the fixed
    catalogue and booking it loads when it is first mounted. */
module Records {

  datatype Option<T> = None | Some(value: T)

  /** A flight of the catalogue. `status` is free text ("on-time", "delayed",
      "cancelled" in the seed); `delayMinutes` is absent on most flights. */
  datatype Flight = Flight(
    id: nat,
    airline: string,
    flightNumber: string,
    from: string,
    to: string,
    departure: string,
    arrival: string,
    duration: string,
    price: nat,
    cabinClass: string,
    seatsAvailable: nat,
    status: string,
    delayMinutes: Option<nat>,
    image: string)

  /** A booking as the bookings list holds it. */
  datatype Booking = Booking(
    id: nat,
    userId: nat,
    flightId: nat,
    bookingDate: string,
    status: string,
    passengers: nat,
    totalAmount: nat,
    pnr: string,
    email: string,
    phone: string,
    alertsEnabled: bool)

  /** The signed-in user. */
  datatype User = User(name: string, email: string)

  /** The three tabs of the page. */
  datatype Tab = SearchTab | BookingsTab | AdminTab

  /** The search form: origin, destination, date prefix, passenger count and cabin class. */
  datatype SearchParams = SearchParams(
    from: string,
    to: string,
    date: string,
    passengers: nat,
    cabinClass: string)

  /** The passenger selector offers 1 to 8. */
  predicate ValidPassengers(p: nat) { 1 <= p <= 8 }

  /** The search form as the page first shows it; `today` is the ISO date of the clock. */
  function InitialSearchParams(today: string): (q: SearchParams)
    ensures ValidPassengers(q.passengers) && q.date == today
  {
    SearchParams("New York", "London", today, 1, "economy")
  }

  /** The fixed catalogue every search filters. */
  function SeedFlights(): (fs: seq<Flight>)
    ensures |fs| == 4 && forall i :: 0 <= i < |fs| ==> fs[i].id == i + 1
  {
    [ Flight(1, "SkyWings", "SW101", "New York", "London",
             "2023-12-01T08:00:00", "2023-12-01T20:30:00", "7h 30m", 499, "economy", 12,
             "on-time", None, "https://placehold.co/80x80/3b82f6/ffffff?text=SW"),
      Flight(2, "Global Air", "GA205", "New York", "London",
             "2023-12-01T14:15:00", "2023-12-01T22:45:00", "8h 30m", 399, "economy", 5,
             "delayed", Some(45), "https://placehold.co/80x80/10b981/ffffff?text=GA"),
      Flight(3, "Elite Airways", "EA301", "New York", "London",
             "2023-12-01T19:30:00", "2023-12-02T07:00:00", "7h", 699, "business", 8,
             "on-time", None, "https://placehold.co/80x80/f59e0b/ffffff?text=EA"),
      Flight(4, "QuickFly", "QF412", "New York", "London",
             "2023-12-01T06:45:00", "2023-12-01T18:15:00", "6h 30m", 549, "premium", 15,
             "on-time", None, "https://placehold.co/80x80/ef4444/ffffff?text=QF") ]
  }

  /** The one booking the page starts with. */
  function SeedBookings(): (bs: seq<Booking>)
    ensures |bs| == 1 && bs[0].id == 1001 && bs[0].flightId == SeedFlights()[0].id
  {
    [ Booking(1001, 1, 1, "2023-11-25", "confirmed", 2, 998, "SW101ABC",
              "user@example.com", "+1234567890", true) ]
  }

  /** `sub` is `s` with some elements removed, the rest kept in order. */
  predicate IsSubsequence<T(==)>(sub: seq<T>, s: seq<T>)
    decreases |s|
  {
    if sub == [] then true
    else if s == [] then false
    else if sub[0] == s[0] then IsSubsequence(sub[1..], s[1..])
    else IsSubsequence(sub, s[1..])
  }

  /** Every sequence is a subsequence of itself. */
  lemma {:induction false} SubsequenceReflexive<T>(s: seq<T>)
    ensures IsSubsequence(s, s)
    decreases |s|
  {
    if s != [] {
      SubsequenceReflexive(s[1..]);
    }
  }

  /** A subsequence of a sequence's tail is a subsequence of the whole sequence. */
  lemma {:induction false} SubsequenceOfTail<T>(sub: seq<T>, s: seq<T>)
    requires s != [] && IsSubsequence(sub, s[1..])
    ensures IsSubsequence(sub, s)
    decreases |s|, 0
  {
    if sub != [] && sub[0] == s[0] {
      SubsequenceDropHead(sub, s[1..]);
    }
  }

  /** Dropping the first element of a subsequence leaves a subsequence. */
  lemma {:induction false} SubsequenceDropHead<T>(sub: seq<T>, s: seq<T>)
    requires sub != [] && IsSubsequence(sub, s)
    ensures IsSubsequence(sub[1..], s)
    decreases |s|, 1
  {
    if sub[0] == s[0] {
      SubsequenceOfTail(sub[1..], s);
    } else {
      SubsequenceDropHead(sub, s[1..]);
      SubsequenceOfTail(sub[1..], s);
    }
  }
}

=== FILE: scenarios.dfy ===
/** Concrete runs of the page component: what a user sees after a few clicks. */
module Scenarios {
  import opened JsString
  import opened Records
  import opened Search
  import opened App

  lemma LowerNewYork()
    ensures ToLowerCase("New York") == "new york" && ToLowerCase("new york") == "new york"
  {
    var r, r' := ToLowerCase("New York"), ToLowerCase("new york");
    assert r[0] == r'[0] == 'n' && r[1] == r'[1] == 'e' && r[2] == r'[2] == 'w' && r[3] == r'[3] == ' ';
    assert r[4] == r'[4] == 'y' && r[5] == r'[5] == 'o' && r[6] == r'[6] == 'r' && r[7] == r'[7] == 'k';
  }

  lemma LowerLondon()
    ensures ToLowerCase("London") == "london" && ToLowerCase("LONDON") == "london"
  {
    var r, r' := ToLowerCase("London"), ToLowerCase("LONDON");
    assert r[0] == r'[0] == 'l' && r[1] == r'[1] == 'o' && r[2] == r'[2] == 'n';
    assert r[3] == r'[3] == 'd' && r[4] == r'[4] == 'o' && r[5] == r'[5] == 'n';
  }

  /** A flight whose cities lower-case to the form's matches it when its
      departure starts with the form's date. */
  lemma MatchesSameCities(f: Flight, q: SearchParams)
    requires ToLowerCase(f.from) == ToLowerCase(q.from)
    requires ToLowerCase(f.to) == ToLowerCase(q.to)
    requires StartsWith(f.departure, q.date)
    ensures Matches(f, q)
  {
  }

  /** The seed date with New York and London as the cities, in any letter case. */
  predicate SeedDayQuery(q: SearchParams)
  {
    ToLowerCase(q.from) == "new york" && ToLowerCase(q.to) == "london" && q.date == "2023-12-01"
  }

  /** A flight from New York to London departing on the seed date matches
      such a form. */
  lemma NewYorkLondonMatches(f: Flight, q: SearchParams)
    requires f.from == "New York" && f.to == "London" && StartsWith(f.departure, "2023-12-01")
    requires SeedDayQuery(q)
    ensures Matches(f, q)
  {
    LowerNewYork();
    LowerLondon();
    MatchesSameCities(f, q);
  }

  /** The preset route on the seed date finds all four seed flights,
      whatever the letter case of the cities. */
  lemma SeedDaySearchFindsWholeSeed(q: SearchParams)
    requires SeedDayQuery(q)
    ensures FilterFlights(SeedFlights(), q) == SeedFlights()
  {
    var fs := SeedFlights();
    forall i | 0 <= i < |fs| ensures Matches(fs[i], q) {
      assert fs[i].departure[..10] == "2023-12-01";
      NewYorkLondonMatches(fs[i], q);
    }
    AllMatchKeepsAll(fs, q);
  }

  /** Booking needs no signed-in user: right after mounting, with nobody
      signed in, a booking is added in front of the seed booking. */
  method BookWhileSignedOut() returns (signedIn: bool, count: nat, firstId: nat, secondId: nat)
    ensures !signedIn && count == 2
    ensures firstId == 1001 && secondId == 1001
  {
    var page := new AppState("2024-01-15");
    page.Mount();
    page.BookFlight(SeedFlights()[1], "2024-01-15", 0.5);
    signedIn := page.user.Some?;
    count := |page.bookings|;
    firstId := page.bookings[0].id;
    secondId := page.bookings[1].id;
  }

  /** The clear scheduled for an earlier message also empties a later one:
      a new message does not cancel the clears already scheduled. */
  method EarlierClearEmptiesLaterMessage() returns (shown: string, stillScheduled: nat)
    ensures shown == "" && stillScheduled == 1
  {
    var page := new AppState("2024-01-15");
    page.Login();
    page.Logout();
    page.ClearTimerFires();
    shown := page.notification;
    stillScheduled := page.pendingClears;
  }

  /** A search with an empty form shows the whole catalogue and announces its size. */
  method EmptySearchShowsCatalogue() returns (shown: seq<Flight>, message: string)
    ensures shown == SeedFlights()
    ensures message == FoundMessage(4)
  {
    var page := new AppState("");
    page.Mount();
    page.EditSearchForm(SearchParams("", "", "", 1, "economy"));
    page.StartSearch();
    page.SearchTimerFires();
    EmptyQueryKeepsAll(SeedFlights(), SearchParams("", "", "", 1, "economy"));
    shown := page.flights;
    message := page.notification;
  }
}

=== FILE: search.dfy ===
/** The flight search of the page: which catalogue flights a search form selects. */
module Search {
  import opened JsString
  import opened Records

  /** A flight matches when its origin and destination contain the form's
      origin and destination, ignoring case, and its departure timestamp
      starts with the form's date. */
  predicate Matches(f: Flight, q: SearchParams)
  {
    Includes(ToLowerCase(f.from), ToLowerCase(q.from))
    && Includes(ToLowerCase(f.to), ToLowerCase(q.to))
    && StartsWith(f.departure, q.date)
  }

  /** `flights.filter(matches)`: the matching flights, in catalogue order. */
  function FilterFlights(fs: seq<Flight>, q: SearchParams): (r: seq<Flight>)
    ensures |r| <= |fs|
    ensures forall f :: f in r ==> f in fs && Matches(f, q)
    decreases |fs|
  {
    if fs == [] then []
    else (if Matches(fs[0], q) then [fs[0]] else []) + FilterFlights(fs[1..], q)
  }

  /** The positions, from `k` on, of the flights that match. */
  function MatchingIndices(fs: seq<Flight>, q: SearchParams, k: nat): seq<nat>
    requires k <= |fs|
    decreases |fs| - k
  {
    if k == |fs| then []
    else (if Matches(fs[k], q) then [k] else []) + MatchingIndices(fs, q, k + 1)
  }

  /** The matching positions are strictly increasing and are exactly the
      positions of matching flights. */
  lemma {:induction false} MatchingIndicesExact(fs: seq<Flight>, q: SearchParams, k: nat)
    requires k <= |fs|
    ensures var idx := MatchingIndices(fs, q, k);
      (forall i :: 0 <= i < |idx| ==> k <= idx[i] < |fs|)
      && (forall i, j :: 0 <= i < j < |idx| ==> idx[i] < idx[j])
      && (forall j :: k <= j < |fs| ==> (j in idx <==> Matches(fs[j], q)))
    decreases |fs| - k
  {
    if k < |fs| {
      MatchingIndicesExact(fs, q, k + 1);
    }
  }

  /** Filtering the suffix from `k` picks the flights at the matching positions, in order. */
  lemma {:induction false} FilterPicksMatching(fs: seq<Flight>, q: SearchParams, k: nat)
    requires k <= |fs|
    ensures var idx := MatchingIndices(fs, q, k);
      var r := FilterFlights(fs[k..], q);
      |r| == |idx|
      && (forall i :: 0 <= i < |idx| ==> k <= idx[i] < |fs| && r[i] == fs[idx[i]])
    decreases |fs| - k
  {
    MatchingIndicesExact(fs, q, k);
    if k < |fs| {
      FilterPicksMatching(fs, q, k + 1);
      assert fs[k..][1..] == fs[k + 1..];
    }
  }

  /** The search result is the catalogue's matching flights and nothing else,
      in catalogue order: it is the catalogue read at the strictly increasing
      positions of exactly the matching flights. */
  lemma SearchSelectsInOrder(fs: seq<Flight>, q: SearchParams)
    ensures var idx := MatchingIndices(fs, q, 0);
      var r := FilterFlights(fs, q);
      |r| == |idx|
      && (forall i :: 0 <= i < |idx| ==> idx[i] < |fs| && r[i] == fs[idx[i]])
      && (forall i, j :: 0 <= i < j < |idx| ==> idx[i] < idx[j])
      && (forall j :: 0 <= j < |fs| ==> (j in idx <==> Matches(fs[j], q)))
  {
    MatchingIndicesExact(fs, q, 0);
    FilterPicksMatching(fs, q, 0);
    assert fs[0..] == fs;
  }

  /** The search result is a subsequence of the catalogue. */
  lemma {:induction false} FilterIsSubsequence(fs: seq<Flight>, q: SearchParams)
    ensures IsSubsequence(FilterFlights(fs, q), fs)
    decreases |fs|
  {
    if fs != [] {
      FilterIsSubsequence(fs[1..], q);
      var rest := FilterFlights(fs[1..], q);
      if Matches(fs[0], q) {
        assert ([fs[0]] + rest)[1..] == rest;
      } else if rest != [] {
        assert rest[0] in rest;
        assert rest[0] != fs[0];
        assert FilterFlights(fs, q) == rest;
      }
    }
  }

  /** A flight appears in the result exactly when it is in the catalogue and matches,
      and it appears as often as it does in the catalogue. */
  lemma {:induction false} FilterCounts(fs: seq<Flight>, q: SearchParams, f: Flight)
    ensures multiset(FilterFlights(fs, q))[f] == if Matches(f, q) then multiset(fs)[f] else 0
    ensures f in FilterFlights(fs, q) <==> f in fs && Matches(f, q)
    decreases |fs|
  {
    if fs != [] {
      FilterCounts(fs[1..], q, f);
      assert fs == [fs[0]] + fs[1..];
    }
  }

  /** An empty origin, destination and date select every flight. */
  lemma EmptyQueryMatches(f: Flight, q: SearchParams)
    requires q.from == "" && q.to == "" && q.date == ""
    ensures Matches(f, q)
  {
  }

  /** When every flight matches, the search returns the catalogue unchanged. */
  lemma {:induction false} AllMatchKeepsAll(fs: seq<Flight>, q: SearchParams)
    requires forall i :: 0 <= i < |fs| ==> Matches(fs[i], q)
    ensures FilterFlights(fs, q) == fs
    decreases |fs|
  {
    if fs != [] {
      assert Matches(fs[0], q);
      AllMatchKeepsAll(fs[1..], q);
    }
  }

  /** With an empty origin, destination and date the search returns the whole catalogue. */
  lemma EmptyQueryKeepsAll(fs: seq<Flight>, q: SearchParams)
    requires q.from == "" && q.to == "" && q.date == ""
    ensures FilterFlights(fs, q) == fs
  {
    forall i | 0 <= i < |fs| ensures Matches(fs[i], q) {
      EmptyQueryMatches(fs[i], q);
    }
    AllMatchKeepsAll(fs, q);
  }

  /** A query that differs only in letter case selects the same flights. */
  lemma CaseInsensitive(f: Flight, q: SearchParams, q': SearchParams)
    requires ToLowerCase(q.from) == ToLowerCase(q'.from)
    requires ToLowerCase(q.to) == ToLowerCase(q'.to)
    requires q.date == q'.date
    ensures Matches(f, q) <==> Matches(f, q')
  {
  }

  /** The notification a search posts: "Found <n> flights". */
  function FoundMessage(n: nat): (m: string)
    ensures |m| >= 15 && m[..6] == "Found " && m[|m| - 8..] == " flights"
    ensures AllDigits(m[6..|m| - 8]) && ParseDigits(m[6..|m| - 8]) == n
    ensures m[6] == '0' ==> n == 0
  {
    var digits := NatToString(n);
    var m := "Found " + digits + " flights";
    assert m[6..|m| - 8] == digits;
    ParseNatToString(n);
    m
  }
}

=== FILE: ticketing.dfy ===
/** The booking record the page builds when a flight is booked, its
    reference code (PNR), and the notification texts of the booking, the
    SMS delay alert and the session buttons. */
module Ticketing {
  import opened JsString
  import opened Records

  /** `Math.floor(1000 + r * 9000)` for the random number `r` in [0, 1):
      always a four-digit number. */
  function PnrSuffix(r: real): (n: int)
    requires 0.0 <= r < 1.0
    ensures 1000 <= n <= 9999
  {
    (1000.0 + r * 9000.0).Floor
  }

  /** The reference code `BK<flight id><suffix>`. */
  function Pnr(flightId: nat, suffix: nat): (p: string)
    ensures |p| >= 4 && p[..2] == "BK" && AllDigits(p[2..])
  {
    var p := "BK" + NatToString(flightId) + NatToString(suffix);
    assert p[2..] == NatToString(flightId) + NatToString(suffix);
    p
  }

  /** Splits a reference code into the flight id and the four-digit suffix. */
  function ParsePnr(p: string): Option<(nat, nat)>
  {
    if |p| >= 7 && p[..2] == "BK" && AllDigits(p[2..|p| - 4]) && AllDigits(p[|p| - 4..])
    then Some((ParseDigits(p[2..|p| - 4]), ParseDigits(p[|p| - 4..])))
    else None
  }

  /** A reference code gives back the flight id and suffix it was built from:
      since the suffix always has four digits, no two bookings with different
      flights or suffixes share a code. */
  lemma PnrRoundTrip(flightId: nat, suffix: nat)
    requires 1000 <= suffix <= 9999
    ensures ParsePnr(Pnr(flightId, suffix)) == Some((flightId, suffix))
  {
    var p := Pnr(flightId, suffix);
    var idText := NatToString(flightId);
    var sufText := NatToString(suffix);
    FourDigits(suffix);
    assert p[2..|p| - 4] == idText;
    assert p[|p| - 4..] == sufText;
    ParseNatToString(flightId);
    ParseNatToString(suffix);
  }

  /** Two reference codes with four-digit suffixes are equal only when both parts are. */
  lemma PnrInjective(id1: nat, s1: nat, id2: nat, s2: nat)
    requires 1000 <= s1 <= 9999 && 1000 <= s2 <= 9999
    ensures Pnr(id1, s1) == Pnr(id2, s2) <==> id1 == id2 && s1 == s2
  {
    PnrRoundTrip(id1, s1);
    PnrRoundTrip(id2, s2);
  }

  /** The booking `handleBookFlight` creates when `count` bookings already exist. */
  function NewBooking(count: nat, flight: Flight, passengers: nat, today: string, suffix: nat): (b: Booking)
    ensures 1000 <= suffix <= 9999 ==> ParsePnr(b.pnr) == Some((flight.id, suffix))
  {
    var b := Booking(count + 1000, 1, flight.id, today, "confirmed", passengers,
                     flight.price * passengers, Pnr(flight.id, suffix),
                     "user@example.com", "+1234567890", true);
    if 1000 <= suffix <= 9999 then PnrRoundTrip(flight.id, suffix); b else b
  }

  /** Booking ids are not unique: the first booking made next to the seed
      booking gets the seed booking's id, 1001. */
  lemma BookingIdCollidesWithSeed(flight: Flight, passengers: nat, today: string, suffix: nat)
    ensures NewBooking(|SeedBookings()|, flight, passengers, today, suffix).id == SeedBookings()[0].id
  {
  }

  /** The confirmation a booking posts. */
  function BookedMessage(flightNumber: string): (m: string)
    ensures |m| == |flightNumber| + 28 && StartsWith(m, "Successfully booked flight ")
    ensures m[27..|m| - 1] == flightNumber && m[|m| - 1] == '!'
  {
    "Successfully booked flight " + flightNumber + "!"
  }

  /** What became of the SMS request: the backend answered with a truthy
      `success`, answered without one, or the request or the reading of its
      JSON answer threw. */
  datatype AlertOutcome = Sent | NotSent | Unreachable

  /** The notification `sendDelayAlert` posts for an outcome. */
  function AlertMessage(flight: Flight, outcome: AlertOutcome): (m: string)
    ensures |m| > 0 && (m[0] == '✅' <==> outcome == Sent)
    ensures outcome == Sent ==> |m| >= |flight.flightNumber| && m[|m| - |flight.flightNumber|..] == flight.flightNumber
  {
    match outcome
    case Sent => "✅ SMS alert sent for " + flight.flightNumber
    case NotSent => "❌ Failed to send SMS"
    case Unreachable => "❌ Server not reachable. Is backend running?"
  }

  /** Each outcome has its own message: the message tells the user what happened. */
  lemma AlertMessageDistinguishes(flight: Flight, o1: AlertOutcome, o2: AlertOutcome)
    ensures AlertMessage(flight, o1) == AlertMessage(flight, o2) <==> o1 == o2
  {
  }

  const LoggedInMessage := "Logged in successfully!"
  const LoggedOutMessage := "Logged out successfully!"

  /** The user `handleLogin` signs in. */
  const DemoUser := User("Akash M", "Akashnarmu06@gmail.com")
}
